=== FILE: README.md ===
# FreshPots coffee-pot client, modelled in Dafny

FreshPots drives a networked coffee maker. The pot is found by mDNS service
discovery. It speaks a tiny binary protocol: a request is one ASCII tag byte
(`M` monitor, `B` brew, `T` stop, `D` delay timer, `W` warming timer, `C`
schedule) followed by zero, one or two big-endian 16-bit second counts. A reply
is a tag byte (`K` acknowledgement, or the pot's state) followed by the timers
that state implies. This project models the client side of that protocol:

- `Meanings`: the tag vocabulary (`BrewerMeaning`, `getChar`, `fromChar`).
- `Codec`: the wire codec.
  - `int16ToBytes` and the request layout written by `sendAndReceive`.
  - `receive` and `readTimer` over a finite input stream. A read past the end
    either returns -1 or throws.
- `Discovery`: the resolved-endpoint slot (`mNsdServiceInfo`) and the
  discovery callbacks, as a state machine. It includes the contract the
  listener documents for the slot.
- `Transaction`: `sendAndReceive`. It runs the stale-slot check, writes the
  request and decodes the reply, and collapses every failure into the
  unknown response.
- `Screen`: the pure helpers of `MainActivity`.
  - `processReceivedMessage`, `mapMeaningsToMedia`, `formatTime`,
    `rebuildMenu`, `updatePage` and `getSecondsFromNow`.
  - The timer menu click.
- `Decimal`: Kotlin's `Int.toString()` and `padStart`, with a digit parser
  used to state round trips.
- `PyClient`: the Python test client's `send` and `recv`.

Behaviour of the code worth knowing before reading the model:

- **Cut-short MONITOR reply.** The comment on `receive` (BrewerClient.kt:213-218)
  and the one on `sendAndReceive` (158-162) speak of problems yielding
  UNKNOWN_OR_ERROR. A stream that simply ends is not such a problem:
  `read()` returns -1, and `(b1 shl 8) or -1` is -1. So a WARM or DELAY reply
  cut short shows a timer of -1, rendered `00:-1`. A SCHEDULE reply cut short
  keeps its first timer if both of its bytes arrived and shows -1 for the rest.
  Only a read that throws gives the unknown response (`Codec.MonitorTruncated`,
  `Codec.ScheduleTruncated`).
- **Failed resolution.** The comments at BrewerClient.kt:79 and 96-98 say a
  failed resolution is reported through `onLost` and that after `onLost` the
  slot is null. `onResolveFailed` reports the loss but keeps the previous
  endpoint (Findings, row 1).
- **Timer range.** The wire field holds 16 bits. The menu computes lengths up
  to 86340 s, and `int16ToBytes` keeps only the low 16 bits (Findings, row 2).
- **Unmapped reply tag.** A reply tag that names no meaning is not read as
  UNKNOWN_OR_ERROR. `fromChar` throws, and `sendAndReceive` catches the
  exception; the outcome is the same unknown response.
- **K or M answering MONITOR.** A MONITOR reply tagged `K` or `M` passes
  through `receive` unchanged. `updatePage` then looks it up in a map that
  has no entry for it, and the `!!` throws (`Screen.MonitorAckHasNoPage`).
- **Scope of the slot contract.** The documented contract says the last
  report decides whether the slot is set. `stopServiceAwareness` clears the
  slot without making a report, so `Discovery.Contract` ties a `Discovered`
  report to a set slot only while the listener is installed.

Source paths below are relative to the repository root. `BrewerClient.kt` and
`MainActivity.kt` live in `Android/app/src/main/java/me/johnchilton/freshpots/`.

## Model

| member | source | states |
|---|---|---|
| Meanings.FromChar | Android/app/src/main/java/me/johnchilton/freshpots/BrewerClient.kt:66-71 | a result is the meaning carrying that tag; the lookup fails exactly for characters outside the eight tags |
| Meanings.FromCharIsFirst | Android/app/src/main/java/me/johnchilton/freshpots/BrewerClient.kt:68-70 | the lookup equals the linear `values().first` search in declaration order, failure included |
| Meanings.TagByte | Android/app/src/main/java/me/johnchilton/freshpots/BrewerClient.kt:177 | every tag's code point is an ASCII byte whose character is the tag |
| Meanings.FromCharTag | Android/app/src/main/java/me/johnchilton/freshpots/BrewerClient.kt:21-71 | `fromChar(getChar(m)) == m`, and a character maps to `m` if and only if it is `m`'s tag |
| Meanings.FromByteTagByte | Android/app/src/main/java/me/johnchilton/freshpots/BrewerClient.kt:233 | the tag byte written on the wire is read back as the same meaning |
| Meanings.FromCharRejects | Android/app/src/main/java/me/johnchilton/freshpots/BrewerClient.kt:68-70 | the lookup fails exactly when no meaning has that tag; only `U` gives UNKNOWN_OR_ERROR |
| Meanings.TagInjective | Android/app/src/main/java/me/johnchilton/freshpots/BrewerClient.kt:21-62 | different meanings have different tags |
| Codec.Int16RoundTrip | Android/app/src/main/java/me/johnchilton/freshpots/BrewerClient.kt:280-288 | `readTimer` over the bytes of `int16ToBytes(v)` gives `v` modulo 2^16, and so `v` itself for 0..65535 |
| Codec.Field | Android/app/src/main/java/me/johnchilton/freshpots/BrewerClient.kt:178-188 | a present seconds value takes two bytes and an absent one none |
| Codec.Encode | Android/app/src/main/java/me/johnchilton/freshpots/BrewerClient.kt:177-188 | a request is 1 + 2·(number of present values) bytes long, so 1, 3 or 5, and its first byte reads back as the message sent |
| Codec.ReadAt | Android/app/src/main/java/me/johnchilton/freshpots/BrewerClient.kt:281-282 | `read()` yields the next byte while there is one; past the end it yields -1, or throws on a failing stream |
| Codec.MonitorReply | Android/app/src/main/java/me/johnchilton/freshpots/BrewerClient.kt:253-271 | timers appear only for WARM, DELAY and SCHEDULE; a second timer only for SCHEDULE; any other tag passes through without timers; a failing read gives the unknown response |
| Codec.Receive | Android/app/src/main/java/me/johnchilton/freshpots/BrewerClient.kt:220-274 | an empty stream gives the unknown response; the function raises exactly when the first byte is unmapped; a known kind is the first byte's meaning; timers come only after MONITOR; a control command yields only acknowledgement or unknown |
| Codec.EncodeReadBack | Android/app/src/main/java/me/johnchilton/freshpots/BrewerClient.kt:177-188 | reading timers at offsets 1 and 3 of an encoded request gives back its seconds values, in order, modulo 2^16 |
| Codec.ControlReadsOneByte | Android/app/src/main/java/me/johnchilton/freshpots/BrewerClient.kt:238-249 | after a control command only the first reply byte matters; the reply is acknowledged if and only if that byte is `K` |
| Codec.MonitorRoundTrip | Android/app/src/main/java/me/johnchilton/freshpots/BrewerClient.kt:253-271 | a MONITOR reply laid out as tag plus 16-bit timers decodes to that tag and those timers |
| Codec.MonitorTruncated | Android/app/src/main/java/me/johnchilton/freshpots/BrewerClient.kt:280-284 | a WARM or DELAY reply cut short reads timer -1 at an orderly end of stream, and the unknown response when the read throws |
| Codec.ScheduleTruncated | Android/app/src/main/java/me/johnchilton/freshpots/BrewerClient.kt:262-265 | a SCHEDULE reply cut short at an orderly end keeps its first timer when both of its bytes arrived, reads -1 otherwise and -1 for the second timer; it gives the unknown response when the read throws |
| Codec.DelayScenario | Android/app/src/main/java/me/johnchilton/freshpots/BrewerClient.kt:238-246 | DELAY 90 s is written `44 00 5A`; the reply `4B` acknowledges it |
| Codec.MonitorScenario | Android/app/src/main/java/me/johnchilton/freshpots/BrewerClient.kt:253-261 | MONITOR is the single byte `4D`; the reply `57 00 1E` reads WARM with 30 s |
| Discovery.Stop | Android/app/src/main/java/me/johnchilton/freshpots/BrewerClient.kt:152-156 | stopping clears the slot and the listener, keeps the last report and reports nothing; it throws exactly when there is no manager or the listener is already null (a second stop, or the one `onStopDiscoveryFailed` makes) |
| Discovery.StepAsWritten | Android/app/src/main/java/me/johnchilton/freshpots/BrewerClient.kt:104-156 | a resolved service is stored in the slot and reported as discovered; a lost service empties the slot and is reported lost; a failed resolution is reported lost and leaves the slot as it was; each report becomes the last report, and events that report nothing keep it, except a fresh start, which resets it; stopping awareness and `onStopDiscoveryFailed` are both `stopServiceAwareness`; the discovery-started, found, discovery-stopped and start-failed callbacks change nothing; a start installs the manager and listener and leaves the slot alone |
| Discovery.StepCorrected | Android/app/src/main/java/me/johnchilton/freshpots/BrewerClient.kt:113-119 | a failed resolution reports loss and empties the slot; every other event behaves as written |
| Discovery.StepKeepsContract | Android/app/src/main/java/me/johnchilton/freshpots/BrewerClient.kt:96-98 | every corrected step preserves the documented slot contract |
| Discovery.RunKeepsContract | Android/app/src/main/java/me/johnchilton/freshpots/BrewerClient.kt:91-99 | the slot contract holds after every sequence of events from a state that satisfies it |
| Discovery.StopClearsSlot | Android/app/src/main/java/me/johnchilton/freshpots/BrewerClient.kt:152-156 | after any run of events that ends in stopping awareness without a crash, the slot is empty and the listener removed |
| Discovery.FoundIsNotActionable | Android/app/src/main/java/me/johnchilton/freshpots/BrewerClient.kt:109-128 | a found but unresolved service changes no state and reports nothing |
| Discovery.AsWrittenBreaksContract | Android/app/src/main/java/me/johnchilton/freshpots/BrewerClient.kt:113-119 | as written, start, resolve and failed re-resolution report loss while the slot still holds the old endpoint, breaking the contract |
| Transaction.SendAndReceive | Android/app/src/main/java/me/johnchilton/freshpots/BrewerClient.kt:169-211 | a stale slot fails without connecting; with a live endpoint and a delivered reply, the encoded request is written and the callback gets what `receive` returned, or unknown when it threw; every unknown outcome carries no timers; timers come only after MONITOR; control commands yield acknowledgement or unknown |
| Transaction.MonitorPollDelivers | Android/app/src/main/java/me/johnchilton/freshpots/BrewerClient.kt:192-203 | a MONITOR poll of a live endpoint writes the single byte `M` and hands the callback the tag and timers of the pot's reply |
| Transaction.FailuresCollapse | Android/app/src/main/java/me/johnchilton/freshpots/BrewerClient.kt:158-167 | refused connection, failed write, empty reply, unmapped tag and a read that throws mid-timer all reach the callback as the same unknown triple |
| Transaction.ControlAcknowledged | Android/app/src/main/java/me/johnchilton/freshpots/BrewerClient.kt:238-246 | with a live endpoint and a reply starting `K`, every control command is acknowledged and the encoded request was written |
| Transaction.LostMeansNoConnection | Android/app/src/main/java/me/johnchilton/freshpots/BrewerClient.kt:171-175 | after any run of the corrected listener whose last report was a loss, an exchange fails fast without opening a socket |
| Screen.Displayed | Android/app/src/main/java/me/johnchilton/freshpots/MainActivity.kt:82-92 | after MONITOR the pot's state is shown; after a command, the command is shown if and only if it was acknowledged, and unknown otherwise; timers pass through |
| Screen.MediaFor | Android/app/src/main/java/me/johnchilton/freshpots/MainActivity.kt:40-47 | picture and status exist for all meanings except ACKNOWLEDGEMENT and MONITOR; the not-connected picture shows for unknown only; the delaying status for DELAY and SCHEDULE |
| Screen.FormatTime | Android/app/src/main/java/me/johnchilton/freshpots/MainActivity.kt:192-193 | the text is absent if and only if the timer is absent |
| Screen.ShortSeconds | Android/app/src/main/java/me/johnchilton/freshpots/MainActivity.kt:197-203 | under a minute either side of zero, the text is `00:` and the seconds padded to two places |
| Screen.FormatShortRoundTrip | Android/app/src/main/java/me/johnchilton/freshpots/MainActivity.kt:200-202 | under an hour the text is `mm:ss`: two digits that read as the minutes, a colon, two digits that read as the seconds; it parses back to the timer |
| Screen.FormatLongRoundTrip | Android/app/src/main/java/me/johnchilton/freshpots/MainActivity.kt:198-199 | from an hour on, the text is three colon-separated fields that are exactly the `toString()` of the hours, the minutes of the hour and the seconds of the minute; it parses back to the timer |
| Screen.LongTextRoundTrip | Android/app/src/main/java/me/johnchilton/freshpots/MainActivity.kt:198-199 | with a positive hour count the text splits into exactly the `toString()` of hours, minutes and seconds, and reads back as (h·60 + m)·60 + s |
| Screen.FormatThirtySeconds | Android/app/src/main/java/me/johnchilton/freshpots/MainActivity.kt:192-204 | 30 s reads `00:30` |
| Screen.FormatEndOfStream | Android/app/src/main/java/me/johnchilton/freshpots/MainActivity.kt:192-204 | the timer -1 of a cut-short reply reads `00:-1` |
| Screen.FormatHourAndMore | Android/app/src/main/java/me/johnchilton/freshpots/MainActivity.kt:192-204 | 3725 s reads `1:2:5`, unpadded |
| Screen.MenuFor | Android/app/src/main/java/me/johnchilton/freshpots/MainActivity.kt:99-141 | the menu is hidden if and only if the state is unknown; it offers BREW if and only if not brewing, STOP if and only if not off, and DELAY and WARM always; entries are distinct control commands, and exactly the timer ones ask for a time |
| Screen.UpdatePage | Android/app/src/main/java/me/johnchilton/freshpots/MainActivity.kt:172-190 | the page renders if and only if the meaning has media; it shows that meaning's picture and status, the menu `rebuildMenu` builds for it (hidden if and only if unknown), and `formatTime` of each of the two timers |
| Screen.CommandOutcomeShown | Android/app/src/main/java/me/johnchilton/freshpots/MainActivity.kt:82-92 | after any control command the screen shows the command if and only if it was acknowledged, and otherwise the unknown state; the page always renders |
| Screen.MonitorOutcomeShown | Android/app/src/main/java/me/johnchilton/freshpots/MainActivity.kt:83-84 | after MONITOR the page renders unless the reply's kind is K or M, and every failure shows the not-connected picture |
| Screen.MonitorAckHasNoPage | Android/app/src/main/java/me/johnchilton/freshpots/MainActivity.kt:206-210 | a MONITOR answered by a bare `K` reaches the missing-entry lookup |
| Screen.SecondsFromNowSpec | Android/app/src/main/java/me/johnchilton/freshpots/MainActivity.kt:152-170 | the result is whole minutes in (-1 h, 24 h); it is negative if and only if the picked time is earlier in the current hour; otherwise it is the wait until the clock next shows that time |
| Screen.Choose | Android/app/src/main/java/me/johnchilton/freshpots/MainActivity.kt:108-141 | plain items send at once without seconds; a cancelled picker does nothing; a timer item warns exactly when the picked time is earlier in the current hour, and otherwise sends the wait until the clock next shows that time, under 24 h |
| Screen.LongTimerTruncated | Android/app/src/main/java/me/johnchilton/freshpots/MainActivity.kt:128-135 | picking 23:59 at 00:00 sends 86340 s, and the pot reads 20804 s |
| Screen.ChooseChecked | Android/app/src/main/java/me/johnchilton/freshpots/MainActivity.kt:128-135 | a sent timer fits in 16 bits; otherwise the click behaves as written, and it warns exactly when the original warned or would have sent more than 65535 s |
| Screen.CheckedTimerArrivesIntact | Android/app/src/main/java/me/johnchilton/freshpots/MainActivity.kt:128-135 | with the bound in place, the timer the pot reads is the timer chosen |
| Decimal.NatString | Android/app/src/main/java/me/johnchilton/freshpots/MainActivity.kt:199 | `toString()` of a non-negative number is a non-empty digit string, one digit long exactly below ten, with no leading zero except for zero itself |
| Decimal.IntString | Android/app/src/main/java/me/johnchilton/freshpots/MainActivity.kt:201 | a negative number's text is a minus sign before the digits of its magnitude |
| Decimal.ParseNatString | Android/app/src/main/java/me/johnchilton/freshpots/MainActivity.kt:199 | the digits `toString()` writes read back as the number |
| Decimal.PadTwoDigits | Android/app/src/main/java/me/johnchilton/freshpots/MainActivity.kt:201 | padding a number under 100 to two places gives two digits that read back as the number |
| PyClient.Send | py_client.py:27-37 | a tag that is not one character raises TypeError, and a value outside 0..65535 raises OverflowError; success happens if and only if the tag is one byte wide and every value fits; the output is the tag byte, then each value big-endian, matching the Android encoder |
| PyClient.NumbersAsWritten | py_client.py:52-53 | the loop prints one number per started two-byte step after the tag |
| PyClient.RecvAsWritten | py_client.py:41-53 | an empty reply raises IndexError, a timeout or socket error reports nothing, and otherwise the tag and the loop's numbers are reported |
| PyClient.NumbersRunToEnd | py_client.py:52-53 | as written, each printed number is read from its offset to the end of the buffer |
| PyClient.ScheduleMisread | py_client.py:52-53 | a SCHEDULE reply with timers 1 and 2 prints 65538 and 2 |
| PyClient.NumbersFixed | py_client.py:52-53 | with two-byte windows every printed number fits in 16 bits |
| PyClient.RecvFixed | py_client.py:41-53 | only an empty reply raises, and a timeout or socket error reports nothing |
| PyClient.RecvFixedRoundTrip | py_client.py:52-53 | with two-byte windows the client reads back exactly the tag and timers of any request or MONITOR reply |
| PyClient.RecvFixedAgreesWithAndroid | py_client.py:41-53 | for a SCHEDULE reply the corrected Python reading and the Android decoder report the same two timers |

## Left out

- Sockets, `Thread.sleep`, `available()` timing, and `flush` are left out.
  - The reply is a finite byte sequence, fully available when `receive` runs.
  - A connection is described by `Transaction.Link`: refused, write failed, or delivered.
- The NsdManager browsing and resolution are left out. Only their callbacks are modelled, as discrete events.
- Concurrency is left out:
  - callbacks racing a transaction;
  - two transactions at once;
  - callbacks that arrive after `stopServiceAwareness`.
- Android views, resources, Snackbar, logging and coroutine dispatch are left out. `Screen` yields the page contents instead of drawing them.
- The monitor polling loop (`statusChecker`, `startMonitoring` and `stopMonitoring`) is left out. It is timing around `sendAndReceive`.
- The lifecycle hooks (`onResume` and `onPause`) are left out. `onResume` only starts awareness. `onPause` stops awareness, stops the monitor polling (also left out) and calls `updatePage(UNKNOWN_OR_ERROR)`, whose result `Screen.UpdatePage` describes.
- `Screen.SecondsFromNowSpec`: the reading of `Calendar` is a parameter. The statement covers valid clock readings, which are the only ones the platform returns.
- `Screen.Choose`: the picked time is assumed to be a valid clock time, which is all the time picker can return.
- `Screen.FormatShortRoundTrip` and `Screen.FormatLongRoundTrip` state the round trip for non-negative timers only. A negative timer cannot be read back: `formatTime` writes -1 as `00:-1`.
- `PyClient.Send` takes already-converted integers. It does not model `int(arg)` on text, the IndexError of a call with no arguments, or the printing of the hexlified bytes.
- `ArduConn.__init__`, `reinit` and `conn` are left out. They only do input, socket set-up and printing.
- Discovery.Stop: the throw on a null listener comes from `NsdManager.stopServiceDiscovery`, whose source is not part of this model; the model takes that rejection as given. Only the null-listener case is modelled: the client state does not record whether the platform still holds a non-null listener, so a stop after `onStartDiscoveryFailed` steps normally.
- `Discovery.Contract` covers the slot only while the listener is installed. After `stopServiceAwareness` the slot is empty regardless of the last report.
- Discovery.Contract: the comment at BrewerClient.kt:96-97 asks for a non-null, DNS-resolved service after a discovery report. The contract promises only that the slot is present. `onServiceResolved` may deliver a service whose host is null, and `sendAndReceive` rechecks the host (`Transaction.Stale`).

## Findings

| source | as written | input that shows it | evidently intended | confidence | as-written member | corrected member |
|---|---|---|---|---|---|---|
| Android/app/src/main/java/me/johnchilton/freshpots/BrewerClient.kt:113-119 | `onResolveFailed` calls `onLost()` but leaves `mNsdServiceInfo` set | start awareness, a service resolves, then a second resolution fails: the app is told the pot is lost, but the next `sendAndReceive` still connects to the old endpoint | clear `mNsdServiceInfo` before reporting loss, as the contract at lines 96-98 requires | high, not executed | Discovery.AsWrittenBreaksContract | Discovery.RunKeepsContract |
| Android/app/src/main/java/me/johnchilton/freshpots/MainActivity.kt:128-135 | a timer length up to 86340 s is sent, and `int16ToBytes` keeps only its low 16 bits | pick 23:59 at 00:00: 86340 s requested, 20804 s reach the pot | refuse (warn about) a length above 65535 s | medium, not executed | Screen.LongTimerTruncated | Screen.CheckedTimerArrivesIntact |
| py_client.py:52-53 | each number is sliced `msg[i:max(i+1, len(msg))]`, which always runs to the end of the reply | SCHEDULE reply `43 00 01 00 02` prints 65538 and 2 instead of 1 and 2 | slice `msg[i:i+2]`, two bytes per timer | high, not executed | PyClient.ScheduleMisread | PyClient.RecvFixedRoundTrip |

=== FILE: codec.dfy ===
/** The binary wire format of BrewerClient: request encoding (`sendAndReceive`
    together with `int16ToBytes`) and response interpretation (`receive` and
    `readTimer`). Pure functions over byte sequences; sockets are left out and
    the reply is a finite byte sequence. */
module Codec {
  import opened Common
  import opened Meanings

  /** `int16ToBytes(pInt)`: the pair `((pInt and 0xff00) shr 8, pInt and 0xff)`.
      Dafny's `%` is Euclidean, so `v % 0x1_0000` is exactly the low sixteen bits
      of `v`'s two's-complement form, also for negative `v`; the masks keep those
      bits and nothing else. */
  function Int16ToBytes(v: Int32): (p: (Byte, Byte))
  {
    ((v % 0x1_0000) / 0x100, v % 0x100)
  }

  /** A value `InputStream.read()` returns: a byte, or -1 at the end of the stream. */
  type ReadValue = x: int | -1 <= x < 0x100

  /** `(b1 shl 8) or b2` on 32-bit Ints, for operands `read()` can return.
      With -1 (all ones) as `b2` every bit is set; otherwise the low eight bits of
      `b1 shl 8` are zero and the `or` adds `b2`. */
  function ShiftOr(b1: ReadValue, b2: ReadValue): Int32
  {
    if b2 == -1 then -1 else b1 * 0x100 + b2
  }

  /** The reply on the socket's input stream: the bytes the pot sent and what a
      read past them does — return -1 (the pot closed the connection) or throw an
      IOException (`endThrows`: the connection is reset). */
  datatype Stream = Stream(bytes: seq<Byte>, endThrows: bool)

  /** `read()` at offset `pos`; `None` is a thrown IOException. */
  function ReadAt(s: Stream, pos: nat): (r: Option<ReadValue>)
    ensures pos < |s.bytes| ==> r == Some(s.bytes[pos])
    ensures pos >= |s.bytes| ==> (r.None? <==> s.endThrows)
  {
    if pos < |s.bytes| then Some(s.bytes[pos])
    else if s.endThrows then None
    else Some(EndOfStream)
  }

  /** What `read()` returns once the stream is exhausted. */
  const EndOfStream: ReadValue := -1

  /** `readTimer`: two reads starting at offset `pos`, high byte first;
      `None` when either read throws. */
  function ReadTimerAt(s: Stream, pos: nat): Option<Int32>
  {
    match ReadAt(s, pos)
    case None => None
    case Some(b1) =>
      match ReadAt(s, pos + 1)
      case None => None
      case Some(b2) => Some(ShiftOr(b1, b2))
  }

  /** What `receive` gives back: the message received and up to two timers. */
  datatype Response = Response(kind: Meaning, timer1: Option<Int32>, timer2: Option<Int32>)

  /** The single failure outcome every error collapses to. */
  const UnknownResponse: Response := Response(UnknownOrError, None, None)

  const AckResponse: Response := Response(Acknowledgement, None, None)

  /** The outcome of `receive`: a returned triple, or an exception that escapes it
      (only `fromChar` on an unmapped first byte can throw out of `receive`). */
  datatype Received = Returned(response: Response) | Raised

  /** The two big-endian bytes a 16-bit field occupies on the wire. */
  function Field(seconds: Option<Int32>): (f: seq<Byte>)
    ensures |f| == if seconds.Some? then 2 else 0
  {
    match seconds
    case None => []
    case Some(v) => var p := Int16ToBytes(v); [p.0, p.1]
  }

  /** The request `sendAndReceive` writes: the tag, then two bytes for each
      seconds value that is not null, in order. The kind is not checked against
      the number of values. */
  function Encode(message: Meaning, seconds1: Option<Int32>, seconds2: Option<Int32>): (w: seq<Byte>)
    ensures |w| == 1 + 2 * Present(seconds1, seconds2)
    ensures |w| in {1, 3, 5}
    ensures FromByte(w[0]) == Some(message)
  {
    FromByteTagByte(message);
    [TagByte(message)] + Field(seconds1) + Field(seconds2)
  }

  /** The MONITOR branch of `receive` after the tag `m` was read: WARM and DELAY
      carry one timer, SCHEDULE two (read in order), anything else none; an
      exception while reading a timer gives the unknown response. */
  function MonitorReply(s: Stream, m: Meaning): (r: Response)
    ensures r.timer1.Some? ==> r.kind == m && m in {Warm, Delay, Schedule}
    ensures r.timer2.Some? <==> r.kind == Schedule && m == Schedule
    ensures r.kind == m || r == UnknownResponse
    ensures m !in {Warm, Delay, Schedule} ==> r == Response(m, None, None)
  {
    match m
    case Warm | Delay =>
      (match ReadTimerAt(s, 1)
       case None => UnknownResponse
       case Some(t) => Response(m, Some(t), None))
    case Schedule =>
      (match ReadTimerAt(s, 1)
       case None => UnknownResponse
       case Some(t1) =>
         match ReadTimerAt(s, 3)
         case None => UnknownResponse
         case Some(t2) => Response(m, Some(t1), Some(t2)))
    case _ => Response(m, None, None)
  }

  /** `receive(inputStream, whatWasSent)`. The interpretation depends on the kind
      that was sent: a control command only accepts an acknowledgement, MONITOR
      takes the reply's tag as the pot's state. No bytes available gives the
      unknown response without reading. */
  function Receive(s: Stream, sent: Meaning): (o: Received)
    ensures |s.bytes| == 0 ==> o == Returned(UnknownResponse)
    ensures o.Raised? <==> |s.bytes| > 0 && FromByte(s.bytes[0]).None?
    ensures o.Returned? && o.response.kind != UnknownOrError ==>
      |s.bytes| > 0 && FromByte(s.bytes[0]) == Some(o.response.kind)
    ensures o.Returned? && o.response.timer1.Some? ==>
      sent == Monitor && o.response.kind in {Warm, Delay, Schedule}
    ensures o.Returned? && o.response.timer2.Some? ==>
      o.response.kind == Schedule && o.response.timer1.Some?
    ensures IsControl(sent) && o.Returned? ==>
      o.response == AckResponse || o.response == UnknownResponse
  {
    if |s.bytes| < 1 then Returned(UnknownResponse)
    else
      match FromByte(s.bytes[0])
      case None => Raised
      case Some(m) =>
        if IsControl(sent) then
          Returned(if m == Acknowledgement then AckResponse else UnknownResponse)
        else if sent == Monitor then
          Returned(MonitorReply(s, m))
        else
          Returned(Response(m, None, None))
  }

  // ---------------------------------------------------------------------------
  // Properties

  /** The two bytes are the high and low byte of the value's low sixteen bits, so
      `readTimer` rebuilds every 16-bit value exactly and any other Int modulo 2^16. */
  lemma Int16RoundTrip(v: Int32)
    ensures ShiftOr(Int16ToBytes(v).0, Int16ToBytes(v).1) == v % 0x1_0000
    ensures 0 <= v <= MaxU16 ==> ShiftOr(Int16ToBytes(v).0, Int16ToBytes(v).1) == v
  {
  }

  /** Reading the timers of an encoded message gives back its seconds values
      (modulo 2^16), in the order they were given. */
  lemma EncodeReadBack(m: Meaning, s1: Option<Int32>, s2: Option<Int32>, endThrows: bool)
    ensures var s := Stream(Encode(m, s1, s2), endThrows);
      && (s1.Some? ==> ReadTimerAt(s, 1) == Some(s1.value % 0x1_0000))
      && (s1.None? && s2.Some? ==> ReadTimerAt(s, 1) == Some(s2.value % 0x1_0000))
      && (s1.Some? && s2.Some? ==> ReadTimerAt(s, 3) == Some(s2.value % 0x1_0000))
  {
    var w := Encode(m, s1, s2);
    if s1.Some? {
      Int16RoundTrip(s1.value);
      assert w[1..3] == Field(s1);
    }
    if s2.Some? {
      Int16RoundTrip(s2.value);
      var k := if s1.Some? then 3 else 1;
      assert w[k..k + 2] == Field(s2);
    }
  }

  /** A control command's reply is judged by its first byte alone: whatever
      follows it, and however the stream ends, is never read. */
  lemma ControlReadsOneByte(s: Stream, sent: Meaning, rest: seq<Byte>, endThrows: bool)
    requires IsControl(sent) && |s.bytes| > 0
    ensures Receive(s, sent) == Receive(Stream(s.bytes[..1] + rest, endThrows), sent)
    ensures Receive(s, sent) == Returned(AckResponse) <==> s.bytes[0] == TagByte(Acknowledgement)
    ensures FromByte(s.bytes[0]).Some? && s.bytes[0] != TagByte(Acknowledgement) ==>
      Receive(s, sent) == Returned(UnknownResponse)
  {
    FromByteTagByte(Acknowledgement);
    var m := FromByte(s.bytes[0]);
    if m.Some? {
      FromCharTag(Acknowledgement, s.bytes[0] as char);
    }
  }

  /** A MONITOR reply laid out like a request (tag, then big-endian 16-bit
      timers) decodes to that tag and those timers. */
  lemma MonitorRoundTrip(m: Meaning, t1: Option<Int32>, t2: Option<Int32>, endThrows: bool)
    requires m in {Warm, Delay} ==> t1.Some? && t2.None?
    requires m == Schedule ==> t1.Some? && t2.Some?
    requires t1.Some? ==> 0 <= t1.value <= MaxU16
    requires t2.Some? ==> 0 <= t2.value <= MaxU16
    ensures Receive(Stream(Encode(m, t1, t2), endThrows), Monitor) ==
      Returned(if m in {Warm, Delay, Schedule} then Response(m, t1, t2) else Response(m, None, None))
  {
    EncodeReadBack(m, t1, t2, endThrows);
  }

  /** A reply cut short after a WARM or DELAY tag. At an orderly end of stream
      `read()` returns -1, and an `or` with -1 sets every bit, so the timer reads
      as -1 whether zero or one of its bytes arrived; only a stream that throws
      gives the unknown response. */
  lemma MonitorTruncated(m: Meaning, tail: seq<Byte>)
    requires m in {Warm, Delay} && |tail| < 2
    ensures Receive(Stream([TagByte(m)] + tail, false), Monitor) == Returned(Response(m, Some(-1), None))
    ensures Receive(Stream([TagByte(m)] + tail, true), Monitor) == Returned(UnknownResponse)
  {
    FromByteTagByte(m);
  }

  /** A SCHEDULE reply cut short. At an orderly end of stream a first timer with
      both bytes present reads normally, one with fewer reads -1, and the second
      timer reads -1; only a stream that throws gives the unknown response. */
  lemma ScheduleTruncated(tail: seq<Byte>)
    requires |tail| < 4
    ensures Receive(Stream([TagByte(Schedule)] + tail, false), Monitor) ==
      Returned(Response(Schedule, Some(if |tail| < 2 then -1 else tail[0] as int * 0x100 + tail[1] as int), Some(-1)))
    ensures Receive(Stream([TagByte(Schedule)] + tail, true), Monitor) == Returned(UnknownResponse)
  {
    FromByteTagByte(Schedule);
  }

  /** Sending DELAY for 90 seconds writes `44 00 5A`; a reply `4B` acknowledges it. */
  lemma DelayScenario()
    ensures Encode(Delay, Some(90), None) == [0x44, 0x00, 0x5A]
    ensures Receive(Stream([0x4B], false), Delay) == Returned(AckResponse)
  {
    FromByteTagByte(Acknowledgement);
  }

  /** MONITOR is the single byte `4D`; the reply `57 00 1E` reads as WARM with 30 s. */
  lemma MonitorScenario()
    ensures Encode(Monitor, None, None) == [0x4D]
    ensures Receive(Stream([0x57, 0x00, 0x1E], false), Monitor) == Returned(Response(Warm, Some(30), None))
  {
    FromByteTagByte(Warm);
  }
}

=== FILE: common.dfy ===
/** Small shared vocabulary: optional values (Kotlin's nullable types), bytes, and
    the 32-bit signed integers that Kotlin's `Int` holds. */
module Common {

  /** A value that may be absent: Kotlin's `T?`, Python's `None`. */
  datatype Option<+T> = None | Some(value: T)

  /** An unsigned byte as it travels on the wire. */
  type Byte = x: int | 0 <= x < 0x100

  /** Kotlin's `Int`: a 32-bit two's-complement integer. */
  type Int32 = x: int | -0x8000_0000 <= x < 0x8000_0000

  /** The largest value a 16-bit unsigned wire field can carry. */
  const MaxU16: int := 0xFFFF

  /** Number of present values among two optional ones. */
  function Present<T>(a: Option<T>, b: Option<T>): (n: nat)
    ensures n <= 2
    ensures n == 0 <==> a.None? && b.None?
  {
    (if a.Some? then 1 else 0) + (if b.Some? then 1 else 0)
  }
}

=== FILE: decimal.dfy ===
/** Decimal text as Kotlin's `Int.toString()` and `String.padStart` produce it,
    and the reading of such text back into numbers. */
module Decimal {

  predicate IsDigit(c: char)
  {
    '0' <= c <= '9'
  }

  predicate IsDigits(s: string)
  {
    forall i :: 0 <= i < |s| ==> IsDigit(s[i])
  }

  function DigitChar(d: nat): (c: char)
    requires d < 10
    ensures IsDigit(c)
  {
    ('0' as int + d) as char
  }

  /** The value of a digit character. */
  function DigitValue(c: char): (d: nat)
    requires IsDigit(c)
    ensures d < 10
  {
    c as int - '0' as int
  }

  /** `toString()` of a non-negative number: its decimal digits, most significant
      first, without leading zeros. */
  function NatString(n: nat): (s: string)
    ensures |s| >= 1 && IsDigits(s)
    ensures |s| == 1 <==> n < 10
    ensures s[0] == '0' ==> n == 0
  {
    if n < 10 then [DigitChar(n)] else NatString(n / 10) + [DigitChar(n % 10)]
  }

  /** `toString()` of any integer: a minus sign before the digits of a negative one. */
  function IntString(n: int): (s: string)
    ensures n >= 0 ==> s == NatString(n)
    ensures n < 0 ==> |s| >= 2 && s[0] == '-' && s[1..] == NatString(-n)
  {
    if n < 0 then "-" + NatString(-n) else NatString(n)
  }

  /** The number a digit string denotes; leading zeros do not count. */
  function ParseNat(s: string): nat
    requires IsDigits(s)
  {
    if |s| == 0 then 0 else ParseNat(s[..|s| - 1]) * 10 + DigitValue(s[|s| - 1])
  }

  /** `k` copies of `c`. */
  function Repeat(c: char, k: nat): (r: string)
    ensures |r| == k
  {
    if k == 0 then "" else [c] + Repeat(c, k - 1)
  }

  /** `padStart(length, c)`: `c` repeated in front until the text is `length`
      long; text already that long is returned unchanged. */
  function PadStart(s: string, length: nat, c: char): (r: string)
    ensures |r| == if |s| < length then length else |s|
  {
    if |s| < length then Repeat(c, length - |s|) + s else s
  }

  /** Reading back the digits `toString()` writes gives the number. */
  lemma {:induction false} ParseNatString(n: nat)
    ensures ParseNat(NatString(n)) == n
  {
    var s := NatString(n);
    if n >= 10 {
      ParseNatString(n / 10);
      assert s[..|s| - 1] == NatString(n / 10);
    }
  }

  /** Leading zeros do not change the value read. */
  lemma {:induction false} ParseNatLeadingZero(s: string)
    requires IsDigits(s)
    ensures IsDigits("0" + s) && ParseNat("0" + s) == ParseNat(s)
    decreases |s|
  {
    if |s| > 0 {
      var t := s[..|s| - 1];
      ParseNatLeadingZero(t);
      assert ("0" + s)[..|s|] == "0" + t;
    }
  }

  /** Zero-padding to two places keeps the value and adds no other character. */
  lemma PadTwoDigits(n: nat)
    requires n < 100
    ensures var p := PadStart(NatString(n), 2, '0');
      |p| == 2 && IsDigits(p) && ParseNat(p) == n
  {
    ParseNatString(n);
    if n < 10 {
      ParseNatLeadingZero(NatString(n));
      assert PadStart(NatString(n), 2, '0') == "0" + NatString(n);
    } else {
      assert NatString(n / 10) == [DigitChar(n / 10)];
    }
  }
}

=== FILE: discovery.dfy ===
/** The resolved-endpoint slot of BrewerClient (`mNsdServiceInfo`) and the
    discovery callbacks that set and clear it. Platform callbacks are discrete
    events; each event is one step of a state machine that also records the last
    report made to the app (`onDiscovered` or `onLost`). */
module Discovery {
  import opened Common

  /** A resolved service: its host (null when the platform gives none) and port. */
  datatype Endpoint = Endpoint(host: Option<string>, port: int)

  /** The last availability report given to the app in the current session. */
  datatype Report = NoReport | Discovered | Lost

  /** `manager`: `mNsdManager` is set; `listening`: `mServiceListener` is set;
      `slot`: `mNsdServiceInfo`; `last`: the last report since awareness started. */
  datatype Client = Client(manager: bool, listening: bool, slot: Option<Endpoint>, last: Report)

  const Initial: Client := Client(false, false, None, NoReport)

  /** The platform and app events that reach the client. */
  datatype Event =
    | StartAwareness            // startServiceAwareness
    | StopAwareness             // stopServiceAwareness
    | DiscoveryStarted          // onDiscoveryStarted
    | ServiceFound              // onServiceFound: asks for resolution, reports nothing
    | ServiceResolved(info: Endpoint)  // ResolveListener.onServiceResolved
    | ResolveFailed             // ResolveListener.onResolveFailed
    | ServiceLost               // onServiceLost
    | DiscoveryStopped          // onDiscoveryStopped
    | StartDiscoveryFailed      // onStartDiscoveryFailed
    | StopDiscoveryFailed       // onStopDiscoveryFailed: calls stopServiceAwareness

  /** A step either reaches a new client state, reporting at most one callback, or
      fails: `stopServiceAwareness` dereferences `mNsdManager!!`, which throws
      before any `startServiceAwareness`. */
  datatype Step = Next(client: Client, report: Option<Report>) | Crashed

  /** `stopServiceAwareness`: stop browsing, drop the listener, clear the slot.
      It throws when `mNsdManager!!` finds no manager, and when the listener it
      passes to `stopServiceDiscovery` is already null (a second stop, or the
      stop `onStopDiscoveryFailed` makes after one): the platform refuses a
      null or unregistered listener. */
  function Stop(c: Client): (st: Step)
    ensures st.Crashed? <==> !c.manager || !c.listening
    ensures st.Next? ==> st.client.slot.None? && !st.client.listening && st.report.None?
    ensures st.Next? ==> st.client.manager && st.client.last == c.last
  {
    if !c.manager || !c.listening then Crashed
    else Next(c.(listening := false, slot := None), None)
  }

  /** The listener's callbacks as written. `onResolveFailed` reports the pot lost
      but leaves the slot as it was. */
  function StepAsWritten(c: Client, e: Event): (st: Step)
    ensures st.Next? && st.report.Some? ==> st.client.last == st.report.value
    ensures st.Next? && st.report.None? ==> st.client.last == (if e == StartAwareness then NoReport else c.last)
    ensures e.ServiceResolved? ==> st.Next? && st.client.slot == Some(e.info) && st.report == Some(Discovered)
    ensures e == ServiceLost ==> st.Next? && st.client.slot.None? && st.report == Some(Lost)
    ensures e == ResolveFailed ==> st.Next? && st.client.slot == c.slot && st.report == Some(Lost)
    ensures e in {StopAwareness, StopDiscoveryFailed} ==> st == Stop(c)
    ensures e in {DiscoveryStarted, ServiceFound, DiscoveryStopped, StartDiscoveryFailed} ==> st == Next(c, None)
    ensures e == StartAwareness ==>
      st.Next? && st.client.manager && st.client.listening && st.client.slot == c.slot && st.report.None?
  {
    match e
    case StartAwareness => Next(c.(manager := true, listening := true, last := NoReport), None)
    case StopAwareness => Stop(c)
    case StopDiscoveryFailed => Stop(c)
    case ServiceResolved(info) => Next(c.(slot := Some(info), last := Discovered), Some(Discovered))
    case ResolveFailed => Next(c.(last := Lost), Some(Lost))
    case ServiceLost => Next(c.(slot := None, last := Lost), Some(Lost))
    case _ => Next(c, None)
  }

  /** The listener's callbacks with `onResolveFailed` also clearing the slot, as
      the listener's documented contract requires. Every other event behaves as
      written. */
  function StepCorrected(c: Client, e: Event): (st: Step)
    ensures e != ResolveFailed ==> st == StepAsWritten(c, e)
    ensures e == ResolveFailed ==> st == Next(c.(slot := None, last := Lost), Some(Lost))
  {
    match e
    case ResolveFailed => Next(c.(slot := None, last := Lost), Some(Lost))
    case _ => StepAsWritten(c, e)
  }

  /** The contract stated on `buildCoffeePotDiscoveryListener`: after a report of
      loss the slot is empty, and while the session is live after a report of
      discovery the slot holds a resolved service. */
  predicate Contract(c: Client)
  {
    && (c.last == Lost ==> c.slot.None?)
    && (c.listening && c.last == Discovered ==> c.slot.Some?)
  }

  /** Runs the corrected listener over a sequence of events; `None` once a step
      crashes. */
  function Run(c: Client, events: seq<Event>): Option<Client>
    decreases |events|
  {
    if |events| == 0 then Some(c)
    else
      match StepCorrected(c, events[0])
      case Crashed => None
      case Next(c', _) => Run(c', events[1..])
  }

  /** Every corrected step keeps the contract. */
  lemma StepKeepsContract(c: Client, e: Event)
    requires Contract(c)
    ensures StepCorrected(c, e).Next? ==> Contract(StepCorrected(c, e).client)
  {
  }

  /** The contract holds after every sequence of events from the initial state. */
  lemma {:induction false} RunKeepsContract(c: Client, events: seq<Event>)
    requires Contract(c)
    ensures Run(c, events).Some? ==> Contract(Run(c, events).value)
    decreases |events|
  {
    if |events| > 0 {
      StepKeepsContract(c, events[0]);
      match StepCorrected(c, events[0])
      case Crashed =>
      case Next(c', _) => RunKeepsContract(c', events[1..]);
    }
  }

  /** Running one more event is one more corrected step after the run. */
  lemma {:induction false} RunSnoc(c: Client, events: seq<Event>, e: Event)
    ensures Run(c, events + [e]) ==
      (match Run(c, events)
       case None => None
       case Some(c') => (match StepCorrected(c', e) case Crashed => None case Next(c'', _) => Some(c'')))
    decreases |events|
  {
    if |events| == 0 {
      assert events + [e] == [e];
    } else {
      assert (events + [e])[1..] == events[1..] + [e];
      match StepCorrected(c, events[0])
      case Crashed =>
      case Next(c', _) => RunSnoc(c', events[1..], e);
    }
  }

  /** Whatever happened before, a run that ends by stopping awareness without
      crashing leaves the slot empty and the listener removed. */
  lemma StopClearsSlot(events: seq<Event>)
    ensures Run(Initial, events + [StopAwareness]).Some? ==>
      Run(Initial, events + [StopAwareness]).value.slot.None? &&
      !Run(Initial, events + [StopAwareness]).value.listening
  {
    RunSnoc(Initial, events, StopAwareness);
  }

  /** A found service is only a candidate: it changes nothing and reports nothing
      until resolution succeeds. */
  lemma FoundIsNotActionable(c: Client)
    ensures StepCorrected(c, ServiceFound) == Next(c, None)
    ensures StepAsWritten(c, ServiceFound) == Next(c, None)
  {
  }

  /** The listener as written breaks its own contract: a service resolves, then a
      second resolution fails, and the app is told the pot is lost while the slot
      still holds the old endpoint. */
  lemma AsWrittenBreaksContract(ep: Endpoint)
    ensures var c1 := StepAsWritten(Initial, StartAwareness).client;
      var c2 := StepAsWritten(c1, ServiceResolved(ep)).client;
      var st := StepAsWritten(c2, ResolveFailed);
      && Contract(c2)
      && st.Next? && st.report == Some(Lost)
      && !Contract(st.client) && st.client.slot == Some(ep)
  {
  }
}

=== FILE: meanings.dfy ===
/** The closed message vocabulary of the coffee-pot protocol: every meaning is
    carried on the wire as one ASCII tag byte (BrewerClient.BrewerMeaning). */
module Meanings {
  import opened Common

  datatype Meaning =
    | UnknownOrError
    | Monitor
    | Brew
    | Stop
    | Delay
    | Warm
    | Schedule
    | Acknowledgement

  /** `getChar`: the tag of each meaning. */
  function Tag(m: Meaning): char
  {
    match m
    case UnknownOrError => 'U'
    case Monitor => 'M'
    case Brew => 'B'
    case Stop => 'T'
    case Delay => 'D'
    case Warm => 'W'
    case Schedule => 'C'
    case Acknowledgement => 'K'
  }

  /** The characters that are some meaning's tag. */
  const TagSet: set<char> := {'U', 'M', 'B', 'T', 'D', 'W', 'C', 'K'}

  /** The eight meanings in declaration order (`values()`). */
  const AllMeanings: seq<Meaning> :=
    [UnknownOrError, Monitor, Brew, Stop, Delay, Warm, Schedule, Acknowledgement]

  /** `fromChar`: the meaning whose tag is `c`. `None` stands for the
      NoSuchElementException that `first` throws when no meaning carries that
      tag; it is never turned into UNKNOWN_OR_ERROR here. */
  function FromChar(c: char): (r: Option<Meaning>)
    ensures r.Some? ==> Tag(r.value) == c
    ensures r.None? <==> c !in TagSet
  {
    if c == 'U' then Some(UnknownOrError)
    else if c == 'M' then Some(Monitor)
    else if c == 'B' then Some(Brew)
    else if c == 'T' then Some(Stop)
    else if c == 'D' then Some(Delay)
    else if c == 'W' then Some(Warm)
    else if c == 'C' then Some(Schedule)
    else if c == 'K' then Some(Acknowledgement)
    else None
  }

  /** The search `values().first { it.getChar() == char }` performs: the
      meanings in declaration order, from position `i` on. */
  function FirstWithTag(c: char, i: nat): (r: Option<Meaning>)
    requires i <= |AllMeanings|
    ensures r.Some? ==> Tag(r.value) == c
    ensures r.None? ==> forall j :: i <= j < |AllMeanings| ==> Tag(AllMeanings[j]) != c
    decreases |AllMeanings| - i
  {
    if i == |AllMeanings| then None
    else if Tag(AllMeanings[i]) == c then Some(AllMeanings[i])
    else FirstWithTag(c, i + 1)
  }

  /** The lookup table agrees with the linear search over `values()`. */
  lemma FromCharIsFirst(c: char)
    ensures FromChar(c) == FirstWithTag(c, 0)
  {
    var r := FirstWithTag(c, 0);
    if r.None? {
      assert Tag(AllMeanings[0]) != c && Tag(AllMeanings[1]) != c && Tag(AllMeanings[2]) != c;
      assert Tag(AllMeanings[3]) != c && Tag(AllMeanings[4]) != c && Tag(AllMeanings[5]) != c;
      assert Tag(AllMeanings[6]) != c && Tag(AllMeanings[7]) != c;
    } else {
      TagInjective(r.value, FromChar(c).value);
    }
  }

  /** The tag's code point as a wire byte (`getChar().code`); all tags are ASCII. */
  function TagByte(m: Meaning): (b: Byte)
    ensures b < 0x80
    ensures b as char == Tag(m)
  {
    Tag(m) as int
  }

  /** A received byte read as a `Char` and looked up with `fromChar`. */
  function FromByte(b: Byte): Option<Meaning>
  {
    FromChar(b as char)
  }

  /** The meanings that are commands answered by a bare acknowledgement. */
  predicate IsControl(m: Meaning)
  {
    m == Brew || m == Schedule || m == Warm || m == Delay || m == Stop
  }

  /** Different meanings have different tags. */
  lemma TagInjective(m1: Meaning, m2: Meaning)
    ensures Tag(m1) == Tag(m2) ==> m1 == m2
  {
  }

  /** Looking up a meaning's own tag gives that meaning back, and the tag is the
      only character that does. */
  lemma FromCharTag(m: Meaning, c: char)
    ensures FromChar(Tag(m)) == Some(m)
    ensures FromChar(c) == Some(m) <==> c == Tag(m)
  {
    TagInjective(FromChar(Tag(m)).value, m);
  }

  /** The byte-level round trip. */
  lemma FromByteTagByte(m: Meaning)
    ensures FromByte(TagByte(m)) == Some(m)
  {
    FromCharTag(m, Tag(m));
  }

  /** Every character outside the eight tags fails the lookup; in particular no
      foreign character is read as UNKNOWN_OR_ERROR. */
  lemma FromCharRejects(c: char)
    ensures FromChar(c).None? <==> forall m: Meaning :: Tag(m) != c
    ensures FromChar(c) == Some(UnknownOrError) <==> c == 'U'
  {
    FromCharTag(UnknownOrError, c);
  }
}

=== FILE: py_client.dfy ===
/** The command-line test client `py_client.py`: a second encoder for the same
    wire format (`ArduConn.send`) and its reading of the reply (`ArduConn.recv`),
    as pure operations over byte sequences. The socket, the half-second wait and
    the printing are left out: `recv` yields the lines it would print. */
module PyClient {
  import opened Common
  import opened Meanings
  import opened Codec

  /** The Python exceptions these operations can raise. */
  datatype PyError = TypeError | OverflowError | ValueError | IndexError

  datatype Result<T> = Ok(value: T) | Err(error: PyError)

  predicate FitsU16(v: int)
  {
    0 <= v <= MaxU16
  }

  /** The i-th optional seconds value, as `send`'s caller would pass it to the
      Kotlin client. */
  function Nth(values: seq<int>, i: nat): Option<Int32>
    requires forall k :: 0 <= k < |values| ==> FitsU16(values[k])
  {
    if i < |values| then assert FitsU16(values[i]); var v: Int32 := values[i]; Some(v) else None
  }

  /** `ArduConn.send(tag, *values)` up to the socket write: the tag's code point,
      then each value as two big-endian unsigned bytes. `ord` of a text that is
      not one character raises TypeError; `to_bytes` raises OverflowError for a
      value outside 0..65535 (it does not mask); `bytearray` raises ValueError for
      a code point above 255. */
  method Send(tag: string, values: seq<int>) returns (r: Result<seq<Byte>>)
    ensures |tag| != 1 ==> r == Err(TypeError)
    ensures |tag| == 1 && (exists k :: 0 <= k < |values| && !FitsU16(values[k])) ==> r == Err(OverflowError)
    ensures r.Ok? <==> |tag| == 1 && tag[0] as int < 0x100 && forall k :: 0 <= k < |values| ==> FitsU16(values[k])
    ensures r.Ok? ==> |r.value| == 1 + 2 * |values| && r.value[0] == tag[0] as int
    ensures r.Ok? ==> forall k :: 0 <= k < |values| ==> r.value[1 + 2 * k] as int * 0x100 + r.value[2 + 2 * k] == values[k]
    ensures r.Ok? && |values| <= 2 && FromChar(tag[0]).Some? ==>
      r.value == Encode(FromChar(tag[0]).value, Nth(values, 0), Nth(values, 1))
  {
    if |tag| != 1 {
      return Err(TypeError);
    }
    var code := tag[0] as int;
    var out: seq<int> := [code];
    var i := 0;
    while i < |values|
      invariant 0 <= i <= |values|
      invariant |out| == 1 + 2 * i && out[0] == code
      invariant forall k :: 0 <= k < i ==> FitsU16(values[k])
      invariant forall k :: 1 <= k < |out| ==> 0 <= out[k] < 0x100
      invariant forall k :: 0 <= k < i ==> out[1 + 2 * k] * 0x100 + out[2 + 2 * k] == values[k]
      invariant forall k :: 0 <= k < i ==> out[1 + 2 * k] == values[k] / 0x100 && out[2 + 2 * k] == values[k] % 0x100
    {
      if !FitsU16(values[i]) {
        return Err(OverflowError);
      }
      out := out + [values[i] / 0x100, values[i] % 0x100];
      i := i + 1;
    }
    if code >= 0x100 {
      return Err(ValueError);
    }
    r := Ok(out);
    if |values| <= 2 && FromChar(tag[0]).Some? {
      var m := FromChar(tag[0]).value;
      assert TagByte(m) == code;
      assert out == Encode(m, Nth(values, 0), Nth(values, 1));
    }
  }

  /** `int.from_bytes(bs, byteorder='big', signed=False)`. */
  function BigEndian(bs: seq<Byte>): nat
  {
    if |bs| == 0 then 0 else BigEndian(bs[..|bs| - 1]) * 0x100 + bs[|bs| - 1]
  }

  lemma BigEndianOne(a: Byte)
    ensures BigEndian([a]) == a
  {
    assert [a][..0] == [];
  }

  lemma BigEndianTwo(a: Byte, b: Byte)
    ensures BigEndian([a, b]) == a * 0x100 + b
  {
    assert [a, b][..1] == [a];
    BigEndianOne(a);
  }

  lemma BigEndianSnoc(bs: seq<Byte>, b: Byte)
    ensures BigEndian(bs + [b]) == BigEndian(bs) * 0x100 + b
  {
    assert (bs + [b])[..|bs|] == bs;
  }

  /** What `recv` obtained from the socket. */
  datatype RecvOutcome = Received(msg: seq<Byte>) | TimedOut | SocketFailed

  /** What `recv` reports: nothing useful (after a timeout or socket error, only
      a message), or the tag character and the integers it decoded. */
  datatype Printed = Failed | Decoded(tag: char, numbers: seq<nat>)

  /** The loop `for i in range(1, len(msg), 2)` as written: the slice
      `msg[i:max(i+1, len(msg))]` always runs to the end of the buffer. */
  function NumbersAsWritten(msg: seq<Byte>, i: nat): (ns: seq<nat>)
    requires i >= 1
    ensures |ns| == if i < |msg| then (|msg| - i + 1) / 2 else 0
    decreases |msg| - i
  {
    if i >= |msg| then []
    else [BigEndian(msg[i..if i + 1 > |msg| then i + 1 else |msg|])] + NumbersAsWritten(msg, i + 2)
  }

  /** `ArduConn.recv` as written. An empty reply (the pot closed the connection)
      makes `msg[0]` raise IndexError. */
  function RecvAsWritten(o: RecvOutcome): (r: Result<Printed>)
    ensures r.Err? <==> o.Received? && |o.msg| == 0
    ensures r.Ok? && o.Received? ==> r.value == Decoded(o.msg[0] as char, NumbersAsWritten(o.msg, 1))
    ensures !o.Received? ==> r == Ok(Failed)
  {
    match o
    case Received(msg) =>
      if |msg| == 0 then Err(IndexError) else Ok(Decoded(msg[0] as char, NumbersAsWritten(msg, 1)))
    case _ => Ok(Failed)
  }

  /** Every number the loop prints is read from its offset to the end of the
      buffer, not from a two-byte window. */
  lemma {:induction false} NumbersRunToEnd(msg: seq<Byte>, i: nat, k: nat)
    requires i >= 1 && k < |NumbersAsWritten(msg, i)|
    ensures NumbersAsWritten(msg, i)[k] == BigEndian(msg[i + 2 * k..])
    decreases |msg| - i
  {
    if k > 0 {
      NumbersRunToEnd(msg, i + 2, k - 1);
    } else {
      assert msg[i..if i + 1 > |msg| then i + 1 else |msg|] == msg[i..];
    }
  }

  /** The pot's SCHEDULE reply with timers 1 and 2 prints 65538 and 2. */
  lemma ScheduleMisread()
    ensures RecvAsWritten(Received(Encode(Schedule, Some(1), Some(2)))) ==
      Ok(Decoded('C', [65538, 2]))
  {
    var msg := Encode(Schedule, Some(1), Some(2));
    assert Field(Some(1)) == [0, 1] && Field(Some(2)) == [0, 2];
    assert msg == [0x43, 0, 1, 0, 2];
    assert msg[1..5] == [0, 1, 0] + [2] && msg[3..5] == [0, 2];
    BigEndianTwo(0, 2);
    assert BigEndian([0, 1, 0]) == 256 by {
      BigEndianTwo(0, 1);
      BigEndianSnoc([0, 1], 0);
      assert [0, 1] + [0] == [0, 1, 0];
    }
    BigEndianSnoc([0, 1, 0], 2);
    assert NumbersAsWritten(msg, 5) == [];
    assert NumbersAsWritten(msg, 3) == [2];
    assert NumbersAsWritten(msg, 1) == [65538, 2];
  }

  /** The loop with each slice the two bytes `msg[i:i+2]` (one byte when the
      buffer ends first), as the pot's layout requires. */
  function NumbersFixed(msg: seq<Byte>, i: nat): (ns: seq<nat>)
    requires i >= 1
    ensures |ns| == if i < |msg| then (|msg| - i + 1) / 2 else 0
    ensures forall k :: 0 <= k < |ns| ==> ns[k] <= MaxU16
    decreases |msg| - i
  {
    if i >= |msg| then []
    else
      var window := msg[i..if i + 2 < |msg| then i + 2 else |msg|];
      assert BigEndian(window) <= MaxU16 by {
        if |window| == 2 {
          assert window == [window[0], window[1]];
          BigEndianTwo(window[0], window[1]);
        } else {
          assert window == [window[0]];
          BigEndianOne(window[0]);
        }
      }
      [BigEndian(window)] + NumbersFixed(msg, i + 2)
  }

  /** `recv` with the two-byte windows of `NumbersFixed`; a timeout or socket
      error still only prints a message. */
  function RecvFixed(o: RecvOutcome): (r: Result<Printed>)
    ensures r.Err? <==> o.Received? && |o.msg| == 0
    ensures !o.Received? ==> r == Ok(Failed)
  {
    match o
    case Received(msg) =>
      if |msg| == 0 then Err(IndexError) else Ok(Decoded(msg[0] as char, NumbersFixed(msg, 1)))
    case _ => Ok(Failed)
  }

  /** The present timers, in order. */
  function Timers(t1: Option<Int32>, t2: Option<Int32>): seq<nat>
    requires t1.Some? ==> FitsU16(t1.value)
    requires t2.Some? ==> FitsU16(t2.value)
  {
    (if t1.Some? then [t1.value as nat] else []) + (if t2.Some? then [t2.value as nat] else [])
  }

  /** With two-byte windows the client reads back exactly what a request or a
      MONITOR reply carries, and agrees with the Android client's decoding. */
  lemma RecvFixedRoundTrip(m: Meaning, t1: Option<Int32>, t2: Option<Int32>)
    requires t2.Some? ==> t1.Some?
    requires t1.Some? ==> FitsU16(t1.value)
    requires t2.Some? ==> FitsU16(t2.value)
    ensures RecvFixed(Received(Encode(m, t1, t2))) == Ok(Decoded(Tag(m), Timers(t1, t2)))
  {
    var msg := Encode(m, t1, t2);
    EncodeReadBack(m, t1, t2, false);
    assert msg[0] as char == Tag(m);
    assert RecvFixed(Received(msg)) == Ok(Decoded(Tag(m), NumbersFixed(msg, 1)));
    if t1.None? {
      assert NumbersFixed(msg, 1) == [] == Timers(t1, t2);
    }
    if t1.Some? {
      assert msg[1..3] == [msg[1], msg[2]];
      BigEndianTwo(msg[1], msg[2]);
      assert ReadTimerAt(Stream(msg, false), 1) == Some(ShiftOr(msg[1], msg[2]));
      assert BigEndian(msg[1..3]) == t1.value;
      if t2.Some? {
        assert msg[3..5] == [msg[3], msg[4]];
        BigEndianTwo(msg[3], msg[4]);
        assert ReadTimerAt(Stream(msg, false), 3) == Some(ShiftOr(msg[3], msg[4]));
        assert BigEndian(msg[3..5]) == t2.value;
        assert NumbersFixed(msg, 5) == [];
        assert NumbersFixed(msg, 1) == [BigEndian(msg[1..3]), BigEndian(msg[3..5])];
        assert NumbersFixed(msg, 1) == Timers(t1, t2);
      } else {
        assert NumbersFixed(msg, 3) == [];
        assert NumbersFixed(msg, 1) == [BigEndian(msg[1..3])];
        assert NumbersFixed(msg, 1) == Timers(t1, t2);
      }
    }
  }

  /** For a SCHEDULE reply, the corrected Python reading and the Android client
      report the same two timers. */
  lemma RecvFixedAgreesWithAndroid(t1: Int32, t2: Int32, endThrows: bool)
    requires FitsU16(t1) && FitsU16(t2)
    ensures Receive(Stream(Encode(Schedule, Some(t1), Some(t2)), endThrows), Monitor) ==
      Returned(Response(Schedule, Some(t1), Some(t2)))
    ensures RecvFixed(Received(Encode(Schedule, Some(t1), Some(t2)))) ==
      Ok(Decoded(Tag(Schedule), [t1 as nat, t2 as nat]))
  {
    MonitorRoundTrip(Schedule, Some(t1), Some(t2), endThrows);
    RecvFixedRoundTrip(Schedule, Some(t1), Some(t2));
    assert Timers(Some(t1), Some(t2)) == [t1 as nat, t2 as nat];
  }
}

=== FILE: screen.dfy ===
/** The pure decisions of MainActivity: which state a reply puts on screen, the
    picture and status for each state, how timers are written, which commands
    the menu offers, and how a picked clock time becomes a timer length. Views,
    resources and the clock are left out; the current time is a parameter. */
module Screen {
  import opened Common
  import opened Meanings
  import opened Codec
  import opened Decimal
  import opened Transaction
  import opened Discovery

  // ---------------------------------------------------------------------------
  // Displayed state

  /** `processReceivedMessage`: for MONITOR the pot's reported state is shown
      with its timers; for a command, the command itself if it was acknowledged
      and UNKNOWN_OR_ERROR otherwise. */
  function Displayed(sent: Meaning, received: Response): (d: Response)
    ensures d.timer1 == received.timer1 && d.timer2 == received.timer2
    ensures sent == Monitor ==> d.kind == received.kind
    ensures sent != Monitor ==> (d.kind == sent <==> received.kind == Acknowledgement || sent == UnknownOrError)
    ensures sent != Monitor && d.kind != sent ==> d.kind == UnknownOrError
  {
    if sent == Monitor then received
    else if received.kind == Acknowledgement then received.(kind := sent)
    else received.(kind := UnknownOrError)
  }

  /** The picture resources. */
  datatype Image = On | Off | Delaying | Warming | NotConnected

  /** The status-text resources. */
  datatype Status = StatusOn | StatusOff | StatusDelaying | StatusWarming | StatusUnknown

  datatype Media = Media(image: Image, status: Status)

  /** `mapMeaningsToMedia`: defined for six meanings only; ACKNOWLEDGEMENT and
      MONITOR have no entry, so looking them up (`!!`) throws. */
  function MediaFor(m: Meaning): (r: Option<Media>)
    ensures r.Some? <==> m !in {Acknowledgement, Monitor}
    ensures r.Some? ==> (r.value.image == NotConnected <==> m == UnknownOrError)
    ensures r.Some? ==> (r.value.status == StatusDelaying <==> m in {Delay, Schedule})
  {
    match m
    case Brew => Some(Media(On, StatusOn))
    case Stop => Some(Media(Off, StatusOff))
    case Delay => Some(Media(Delaying, StatusDelaying))
    case Warm => Some(Media(Warming, StatusWarming))
    case Schedule => Some(Media(Delaying, StatusDelaying))
    case UnknownOrError => Some(Media(NotConnected, StatusUnknown))
    case _ => None
  }

  // ---------------------------------------------------------------------------
  // Timer text

  /** Kotlin's `/` on integers: the quotient truncated toward zero. */
  function TruncDiv(a: int, b: int): (q: int)
    requires b > 0
    ensures a >= 0 ==> q == a / b
    ensures a < 0 ==> q == -((-a) / b)
  {
    if a >= 0 then a / b else -((-a) / b)
  }

  /** Kotlin's `%` on integers: the remainder takes the sign of the dividend. */
  function TruncRem(a: int, b: int): (r: int)
    requires b > 0
    ensures a == TruncDiv(a, b) * b + r
    ensures -b < r < b
    ensures a >= 0 ==> r >= 0
  {
    a - TruncDiv(a, b) * b
  }

  /** `formatTime`: null stays null; a timer of at least an hour reads `h:m:s`
      with no padding; a shorter one reads `mm:ss` with both parts padded to two
      places. The components come from `Duration.toComponents`, which truncates
      toward zero, so a negative timer shows negative components. */
  function FormatTime(timer: Option<Int32>): (r: Option<string>)
    ensures r.None? <==> timer.None?
  {
    match timer
    case None => None
    case Some(t) => Some(ClockText(TruncDiv(t, 3600), TruncRem(TruncDiv(t, 60), 60), TruncRem(t, 60)))
  }

  /** The lambda `formatTime` passes to `toComponents`. */
  function ClockText(hours: int, minutes: int, seconds: int): string
  {
    if hours > 0 then
      IntString(hours) + ":" + IntString(minutes) + ":" + IntString(seconds)
    else
      PadStart(IntString(minutes), 2, '0') + ":" + PadStart(IntString(seconds), 2, '0')
  }

  /** The colon-separated fields of a text. */
  function Fields(s: string): (fs: seq<string>)
    ensures |fs| >= 1
  {
    if |s| == 0 then [""]
    else if s[0] == ':' then [""] + Fields(s[1..])
    else var f := Fields(s[1..]); [[s[0]] + f[0]] + f[1..]
  }

  predicate AllDigits(fs: seq<string>)
  {
    forall i :: 0 <= i < |fs| ==> IsDigits(fs[i])
  }

  /** The number of seconds the fields `h:m:s` or `m:s` denote. */
  function ClockValue(fs: seq<string>): nat
    requires AllDigits(fs)
  {
    if |fs| == 0 then 0 else ClockValue(fs[..|fs| - 1]) * 60 + ParseNat(fs[|fs| - 1])
  }

  /** Reads a clock text written by `formatTime` back into seconds. */
  function ParseClock(s: string): Option<nat>
  {
    ParseFields(Fields(s))
  }

  function ParseFields(fs: seq<string>): Option<nat>
  {
    if AllDigits(fs) then Some(ClockValue(fs)) else None
  }

  lemma {:induction false} FieldsPlain(a: string)
    requires IsDigits(a)
    ensures Fields(a) == [a]
    decreases |a|
  {
    if |a| > 0 {
      FieldsPlain(a[1..]);
      assert [a[0]] + a[1..] == a;
    }
  }

  lemma {:induction false} FieldsSplit(a: string, b: string)
    requires IsDigits(a)
    ensures Fields(a + ":" + b) == [a] + Fields(b)
    decreases |a|
  {
    if |a| == 0 {
      assert a + ":" + b == [':'] + b;
      assert (a + ":" + b)[1..] == b;
    } else {
      FieldsSplit(a[1..], b);
      assert (a + ":" + b)[1..] == a[1..] + ":" + b;
      assert [a[0]] + a[1..] == a;
    }
  }

  /** For a timer of at least zero seconds the components are the usual hours,
      minutes of the hour and seconds of the minute. */
  lemma Components(t: int)
    requires t >= 0
    ensures TruncDiv(t, 3600) == t / 3600
    ensures TruncRem(TruncDiv(t, 60), 60) == (t / 60) % 60
    ensures TruncRem(t, 60) == t % 60
    ensures (t / 3600) * 3600 + ((t / 60) % 60) * 60 + t % 60 == t
  {
    assert t / 60 == (t / 3600) * 60 + (t / 60) % 60;
  }

  lemma ClockValueTwo(a: string, b: string)
    requires IsDigits(a) && IsDigits(b)
    ensures ClockValue([a, b]) == ParseNat(a) * 60 + ParseNat(b)
  {
    assert [a, b][..1] == [a];
    assert [a][..0] == [];
    assert ClockValue([a]) == ParseNat(a);
  }

  lemma ClockValueThree(a: string, b: string, c: string)
    requires IsDigits(a) && IsDigits(b) && IsDigits(c)
    ensures ClockValue([a, b, c]) == (ParseNat(a) * 60 + ParseNat(b)) * 60 + ParseNat(c)
  {
    assert [a, b, c][..2] == [a, b];
    ClockValueTwo(a, b);
  }

  lemma FieldsTwo(a: string, b: string)
    requires IsDigits(a) && IsDigits(b)
    ensures Fields(a + ":" + b) == [a, b]
  {
    FieldsSplit(a, b);
    FieldsPlain(b);
  }

  lemma FieldsThree(a: string, b: string, c: string)
    requires IsDigits(a) && IsDigits(b) && IsDigits(c)
    ensures Fields(a + ":" + b + ":" + c) == [a, b, c]
  {
    assert a + ":" + b + ":" + c == a + ":" + (b + ":" + c);
    FieldsSplit(a, b + ":" + c);
    FieldsTwo(b, c);
  }

  lemma ParseFieldsTwo(a: string, b: string)
    requires IsDigits(a) && IsDigits(b)
    ensures ParseFields([a, b]) == Some(ParseNat(a) * 60 + ParseNat(b))
  {
    assert AllDigits([a, b]);
    ClockValueTwo(a, b);
  }

  lemma ParseFieldsThree(a: string, b: string, c: string)
    requires IsDigits(a) && IsDigits(b) && IsDigits(c)
    ensures ParseFields([a, b, c]) == Some((ParseNat(a) * 60 + ParseNat(b)) * 60 + ParseNat(c))
  {
    assert AllDigits([a, b, c]);
    ClockValueThree(a, b, c);
  }

  /** Two digit fields joined by a colon read back as minutes and seconds. */
  lemma ParseClockTwo(a: string, b: string)
    requires IsDigits(a) && IsDigits(b)
    ensures ParseClock(a + ":" + b) == Some(ParseNat(a) * 60 + ParseNat(b))
  {
    FieldsTwo(a, b);
    assert ParseClock(a + ":" + b) == ParseFields([a, b]);
    ParseFieldsTwo(a, b);
  }

  /** Three digit fields joined by colons read back as hours, minutes, seconds. */
  lemma ParseClockThree(a: string, b: string, c: string)
    requires IsDigits(a) && IsDigits(b) && IsDigits(c)
    ensures ParseClock(a + ":" + b + ":" + c) ==
      Some((ParseNat(a) * 60 + ParseNat(b)) * 60 + ParseNat(c))
  {
    FieldsThree(a, b, c);
    assert ParseClock(a + ":" + b + ":" + c) == ParseFields([a, b, c]);
    ParseFieldsThree(a, b, c);
  }

  /** `mm:ss` text for minutes and seconds under sixty has the colon third and
      reads back as those minutes and seconds. */
  lemma ShortTextRoundTrip(m: nat, sec: nat)
    requires m < 60 && sec < 60
    ensures |ClockText(0, m, sec)| == 5 && ClockText(0, m, sec)[2] == ':'
    ensures ParseClock(ClockText(0, m, sec)) == Some(m * 60 + sec)
    ensures var s := ClockText(0, m, sec);
      && IsDigits(s[..2]) && IsDigits(s[3..])
      && ParseNat(s[..2]) == m && ParseNat(s[3..]) == sec
  {
    var ms, ss := PadStart(NatString(m), 2, '0'), PadStart(NatString(sec), 2, '0');
    PadTwoDigits(m);
    PadTwoDigits(sec);
    assert ClockText(0, m, sec) == ms + ":" + ss;
    assert |ms + ":" + ss| == 5 && (ms + ":" + ss)[2] == ':';
    assert (ms + ":" + ss)[..2] == ms && (ms + ":" + ss)[3..] == ss;
    ParseClockTwo(ms, ss);
  }

  /** Under an hour, `formatTime` writes `mm:ss` and reading it back gives the timer. */
  lemma FormatShortRoundTrip(t: Int32)
    requires 0 <= t < 3600
    ensures FormatTime(Some(t)).Some?
    ensures |FormatTime(Some(t)).value| == 5 && FormatTime(Some(t)).value[2] == ':'
    ensures ParseClock(FormatTime(Some(t)).value) == Some(t)
    ensures var s := FormatTime(Some(t)).value;
      && IsDigits(s[..2]) && IsDigits(s[3..])
      && ParseNat(s[..2]) == t / 60 && ParseNat(s[3..]) == t % 60
  {
    var m, sec := t / 60, t % 60;
    Components(t);
    assert FormatTime(Some(t)) == Some(ClockText(0, m, sec));
    ShortTextRoundTrip(m, sec);
    assert m * 60 + sec == t;
  }

  /** Three digit fields joined by colons split back into those fields and read
      back as the clock value of the numbers they denote. Stated over abstract
      strings so that the proof about `ClockText` stays small. */
  lemma ThreeFieldsRoundTrip(hs: string, ms: string, ss: string, h: nat, m: nat, sec: nat)
    requires IsDigits(hs) && IsDigits(ms) && IsDigits(ss)
    requires ParseNat(hs) == h && ParseNat(ms) == m && ParseNat(ss) == sec
    ensures Fields(hs + ":" + ms + ":" + ss) == [hs, ms, ss]
    ensures ParseClock(hs + ":" + ms + ":" + ss) == Some((h * 60 + m) * 60 + sec)
  {
    FieldsThree(hs, ms, ss);
    ParseClockThree(hs, ms, ss);
  }

  /** `h:m:s` text with a positive hour count has the three `toString()` fields
      and reads back as those hours, minutes and seconds. */
  lemma LongTextRoundTrip(h: nat, m: nat, sec: nat)
    requires h > 0
    ensures Fields(ClockText(h, m, sec)) == [NatString(h), NatString(m), NatString(sec)]
    ensures ParseClock(ClockText(h, m, sec)) == Some((h * 60 + m) * 60 + sec)
  {
    var hs, ms, ss := NatString(h), NatString(m), NatString(sec);
    assert ClockText(h, m, sec) == hs + ":" + ms + ":" + ss;
    ParseNatString(h);
    ParseNatString(m);
    ParseNatString(sec);
    ThreeFieldsRoundTrip(hs, ms, ss, h, m, sec);
  }

  /** From an hour on, `formatTime` writes three unpadded fields `h:m:s` and
      reading them back gives the timer. */
  lemma FormatLongRoundTrip(t: Int32)
    requires t >= 3600
    ensures FormatTime(Some(t)).Some?
    ensures ParseClock(FormatTime(Some(t)).value) == Some(t)
    ensures Fields(FormatTime(Some(t)).value) == [NatString(t / 3600), NatString((t / 60) % 60), NatString(t % 60)]
  {
    Components(t);
    var h, m, sec := t / 3600, (t / 60) % 60, t % 60;
    assert FormatTime(Some(t)) == Some(ClockText(h, m, sec));
    LongTextRoundTrip(h, m, sec);
  }

  /** Under a minute either way, `formatTime` shows zero minutes and the
      seconds as `toString()` writes them, padded to two. */
  lemma ShortSeconds(t: Int32)
    requires -60 < t < 60
    ensures FormatTime(Some(t)) == Some("00:" + PadStart(IntString(t), 2, '0'))
  {
    assert TruncDiv(t, 3600) == 0 && TruncDiv(t, 60) == 0;
    assert TruncRem(0, 60) == 0 && TruncRem(t, 60) == t;
    assert FormatTime(Some(t)) == Some(ClockText(0, 0, t));
    var zero, secs := IntString(0), PadStart(IntString(t), 2, '0');
    assert ClockText(0, 0, t) == PadStart(zero, 2, '0') + ":" + secs;
    assert zero == "0";
    PadOnce(zero, "00");
    assert "00" + ":" + secs == "00:" + secs;
  }

  /** Thirty seconds read `00:30`. */
  lemma FormatThirtySeconds()
    ensures FormatTime(Some(30)) == Some("00:30")
  {
    ShortSeconds(30);
    assert IntString(30) == "30" by {
      assert NatString(3) == "3";
    }
    assert PadStart("30", 2, '0') == "30";
    assert "00:" + "30" == "00:30";
  }

  /** A timer of -1, what `readTimer` gives when the reply ends early, reads `00:-1`. */
  lemma FormatEndOfStream()
    ensures FormatTime(Some(-1)) == Some("00:-1")
  {
    ShortSeconds(-1);
    assert IntString(-1) == "-1" by {
      assert NatString(1) == "1";
    }
    assert PadStart("-1", 2, '0') == "-1";
    assert "00:" + "-1" == "00:-1";
  }

  /** One digit padded to two gains a single leading zero. */
  lemma PadOnce(s: string, r: string)
    requires |s| == 1 && r == ['0'] + s
    ensures PadStart(s, 2, '0') == r
  {
    assert Repeat('0', 1) == ['0'];
  }

  /** 3725 seconds read `1:2:5`, unpadded. */
  lemma FormatHourAndMore()
    ensures FormatTime(Some(3725)) == Some("1:2:5")
  {
    Components(3725);
    assert FormatTime(Some(3725)) == Some(ClockText(1, 2, 5));
    var h, m, sec := IntString(1), IntString(2), IntString(5);
    assert h == "1" && m == "2" && sec == "5";
    assert ClockText(1, 2, 5) == h + ":" + m + ":" + sec;
    assert "1" + ":" + "2" + ":" + "5" == "1:2:5";
  }

  // ---------------------------------------------------------------------------
  // Menu

  /** A command in the pop-up menu; `asksForTime` items open the time picker. */
  datatype MenuItem = MenuItem(command: Meaning, title: string, asksForTime: bool)

  /** The menu button: hidden, or shown with its commands in order. */
  datatype MenuButton = Hidden | Shown(items: seq<MenuItem>)

  predicate Offers(b: MenuButton, m: Meaning)
  {
    b.Shown? && exists i :: 0 <= i < |b.items| && b.items[i].command == m
  }

  /** `rebuildMenu` as `updatePage` uses it: no menu while the state is unknown;
      otherwise "Brew now" unless already brewing, "Turn off" unless already off,
      and the two timer commands always. */
  function MenuFor(active: Meaning): (b: MenuButton)
    ensures b.Hidden? <==> active == UnknownOrError
    ensures b.Shown? ==> (Offers(b, Brew) <==> active != Brew)
    ensures b.Shown? ==> (Offers(b, Stop) <==> active != Stop)
    ensures b.Shown? ==> Offers(b, Delay) && Offers(b, Warm)
    ensures b.Shown? ==> forall i :: 0 <= i < |b.items| ==>
      IsControl(b.items[i].command) && b.items[i].command != Schedule &&
      (b.items[i].asksForTime <==> b.items[i].command in {Delay, Warm})
    ensures b.Shown? ==> forall i, j :: 0 <= i < j < |b.items| ==> b.items[i].command != b.items[j].command
  {
    if active == UnknownOrError then Hidden
    else
      var brew := if active != Brew then [MenuItem(Brew, "Brew now", false)] else [];
      var stop := if active != Stop then [MenuItem(Stop, "Turn off", false)] else [];
      var items := brew + stop + [MenuItem(Delay, "Start a brew timer", true),
                                  MenuItem(Warm, "Start a warming timer", true)];
      assert items[|items| - 2].command == Delay && items[|items| - 1].command == Warm;
      assert active != Brew ==> items[0].command == Brew;
      assert active != Stop ==> items[|brew|].command == Stop;
      Shown(items)
  }

  // ---------------------------------------------------------------------------
  // Page

  /** What `updatePage` puts on screen: the picture, the status text resource
      with its formatted timers, and the menu. */
  datatype Page = Page(image: Image, status: Status, timer1Text: Option<string>,
                       timer2Text: Option<string>, menu: MenuButton)

  /** `updatePage(message, timer1, timer2)`; `None` is the exception thrown by
      `mapMeaningsToMedia[message]!!` for a meaning with no entry. */
  function UpdatePage(d: Response): (p: Option<Page>)
    ensures p.Some? <==> MediaFor(d.kind).Some?
    ensures p.Some? ==> p.value.image == MediaFor(d.kind).value.image
    ensures p.Some? ==> (p.value.menu.Hidden? <==> d.kind == UnknownOrError)
    ensures p.Some? ==> (p.value.timer1Text.Some? <==> d.timer1.Some?)
    ensures p.Some? ==> p.value.status == MediaFor(d.kind).value.status && p.value.menu == MenuFor(d.kind)
    ensures p.Some? ==> p.value.timer1Text == FormatTime(d.timer1) && p.value.timer2Text == FormatTime(d.timer2)
  {
    match MediaFor(d.kind)
    case None => None
    case Some(media) =>
      Some(Page(media.image, media.status, FormatTime(d.timer1), FormatTime(d.timer2), MenuFor(d.kind)))
  }

  /** After a command, the screen shows the command exactly when the pot
      acknowledged it and the unknown state otherwise; the page always renders. */
  lemma CommandOutcomeShown(slot: Option<Endpoint>, cmd: Meaning,
                            s1: Option<Int32>, s2: Option<Int32>, link: Link)
    requires IsControl(cmd)
    ensures var r := SendAndReceive(slot, cmd, s1, s2, link).response;
      var d := Displayed(cmd, r);
      && (d.kind == cmd <==> r == AckResponse)
      && (d.kind != cmd ==> d == UnknownResponse)
      && UpdatePage(d).Some?
  {
  }

  /** After MONITOR the page renders unless the pot answered with a tag that has
      no picture (K or M); every failure shows the not-connected picture. */
  lemma MonitorOutcomeShown(slot: Option<Endpoint>, link: Link)
    ensures var r := SendAndReceive(slot, Monitor, None, None, link).response;
      && (UpdatePage(Displayed(Monitor, r)).Some? <==> r.kind !in {Acknowledgement, Monitor})
      && (r.kind == UnknownOrError ==> UpdatePage(Displayed(Monitor, r)).value.image == NotConnected)
  {
  }

  /** A MONITOR reply of a bare `K` reaches the missing-entry lookup. */
  lemma MonitorAckHasNoPage(ep: Endpoint)
    requires ep.host.Some?
    ensures var r := SendAndReceive(Some(ep), Monitor, None, None,
                                    Delivered(Stream([TagByte(Acknowledgement)], false))).response;
      r == AckResponse && UpdatePage(Displayed(Monitor, r)).None?
  {
    FromByteTagByte(Acknowledgement);
  }

  // ---------------------------------------------------------------------------
  // Timer length

  predicate ValidClock(hours: int, minutes: int)
  {
    0 <= hours < 24 && 0 <= minutes < 60
  }

  /** `getSecondsFromNow(hours, minutes)` with the clock reading passed in. */
  function SecondsFromNow(hours: int, minutes: int, hoursNow: int, minutesNow: int): int
  {
    var h := if hours - hoursNow < 0 then hours - hoursNow + 24 else hours - hoursNow;
    var mm := minutes - minutesNow;
    var h' := if mm < 0 then h - 1 else h;
    var m' := if mm < 0 then mm + 60 else mm;
    h' * 60 * 60 + m' * 60
  }

  /** For clock readings the result is whole minutes within (-1 h, 24 h); it is
      negative exactly when the picked time lies earlier in the current hour, and
      otherwise it is the wait until the next time the clock shows that time. */
  lemma SecondsFromNowSpec(hours: int, minutes: int, hoursNow: int, minutesNow: int)
    requires ValidClock(hours, minutes) && ValidClock(hoursNow, minutesNow)
    ensures var r := SecondsFromNow(hours, minutes, hoursNow, minutesNow);
      && r % 60 == 0
      && -3600 < r < 86400
      && (r < 0 <==> hours == hoursNow && minutes < minutesNow)
      && (r >= 0 ==> r == 60 * ((hours * 60 + minutes - (hoursNow * 60 + minutesNow)) % 1440))
  {
    var r := SecondsFromNow(hours, minutes, hoursNow, minutesNow);
    var delta := hours * 60 + minutes - (hoursNow * 60 + minutesNow);
    if hours > hoursNow {
      assert r == 60 * delta && 0 < delta < 1440;
    } else if hours < hoursNow {
      assert r == 60 * (delta + 1440) && -1440 < delta < 0;
      assert (delta + 1440) % 1440 == delta % 1440;
    } else {
      assert r == 60 * delta && -60 < delta < 60;
    }
  }

  /** What choosing a menu item leads to: a request sent, the too-short warning,
      or nothing (the time picker was cancelled). */
  datatype Action = Send(command: Meaning, seconds1: Option<Int32>) | Warn | Nothing

  /** A click on a menu item as written: plain commands are sent at once; timer
      commands take the picked time, warn when it lies in the past within the
      current hour, and otherwise send the computed seconds. */
  function Choose(item: MenuItem, picked: Option<(int, int)>, hoursNow: int, minutesNow: int): (a: Action)
    requires picked.Some? ==> ValidClock(picked.value.0, picked.value.1)
    requires ValidClock(hoursNow, minutesNow)
    ensures !item.asksForTime ==> a == Send(item.command, None)
    ensures item.asksForTime && picked.None? ==> a == Nothing
    ensures a.Send? && a.seconds1.Some? ==> item.asksForTime && 0 <= a.seconds1.value < 86400
    ensures item.asksForTime && picked.Some? ==>
      var (h, m) := picked.value;
      && (a.Warn? <==> h == hoursNow && m < minutesNow)
      && (!a.Warn? ==> a == Send(item.command, Some(60 * ((h * 60 + m - (hoursNow * 60 + minutesNow)) % 1440))))
  {
    if !item.asksForTime then Send(item.command, None)
    else
      match picked
      case None => Nothing
      case Some((h, m)) =>
        SecondsFromNowSpec(h, m, hoursNow, minutesNow);
        var seconds := SecondsFromNow(h, m, hoursNow, minutesNow);
        if seconds < 0 then Warn else Send(item.command, Some(seconds))
  }

  /** As written, a timer longer than 65535 seconds (about 18 h 12 min) is sent
      without complaint and reaches the pot reduced modulo 2^16: picking 23:59
      at 00:00 asks for 86340 s and the pot reads 20804 s. */
  lemma LongTimerTruncated()
    ensures var item := MenuItem(Delay, "Start a brew timer", true);
      var a := Choose(item, Some((23, 59)), 0, 0);
      && a == Send(Delay, Some(86340))
      && ReadTimerAt(Stream(Encode(Delay, Some(86340), None), false), 1) == Some(20804)
  {
    EncodeReadBack(Delay, Some(86340), None, false);
  }

  /** The click with the timer bounded by what the wire field carries: a length
      that does not fit in 16 bits gets the warning like a past time does. */
  function ChooseChecked(item: MenuItem, picked: Option<(int, int)>, hoursNow: int, minutesNow: int): (a: Action)
    requires picked.Some? ==> ValidClock(picked.value.0, picked.value.1)
    requires ValidClock(hoursNow, minutesNow)
    ensures a.Send? && a.seconds1.Some? ==> 0 <= a.seconds1.value <= MaxU16
    ensures a.Send? ==> a == Choose(item, picked, hoursNow, minutesNow)
    ensures var c := Choose(item, picked, hoursNow, minutesNow);
      a.Warn? <==> (c.Warn? || (c.Send? && c.seconds1.Some? && c.seconds1.value > MaxU16))
  {
    match Choose(item, picked, hoursNow, minutesNow)
    case Send(cmd, Some(seconds)) => if seconds > MaxU16 then Warn else Send(cmd, Some(seconds))
    case other => other
  }

  /** With the bound in place, the timer the pot reads is the timer chosen. */
  lemma CheckedTimerArrivesIntact(item: MenuItem, picked: Option<(int, int)>, hoursNow: int, minutesNow: int,
                                  endThrows: bool)
    requires picked.Some? ==> ValidClock(picked.value.0, picked.value.1)
    requires ValidClock(hoursNow, minutesNow)
    ensures var a := ChooseChecked(item, picked, hoursNow, minutesNow);
      a.Send? && a.seconds1.Some? ==>
        ReadTimerAt(Stream(Encode(a.command, a.seconds1, None), endThrows), 1) == a.seconds1
  {
    var a := ChooseChecked(item, picked, hoursNow, minutesNow);
    if a.Send? && a.seconds1.Some? {
      EncodeReadBack(a.command, a.seconds1, None, endThrows);
    }
  }
}

=== FILE: transaction.dfy ===
/** `sendAndReceive`: one request/response exchange over a fresh connection to
    the endpoint in the slot, with every failure reported as UNKNOWN_OR_ERROR.
    The socket is replaced by a description of what the connection does. */
module Transaction {
  import opened Common
  import opened Meanings
  import opened Codec
  import opened Discovery

  /** What the connection to the pot does: refuse to open (or fail to resolve the
      host), fail while the request is written or flushed, or deliver a reply. */
  datatype Link = Refused | WriteFailed | Delivered(reply: Stream)

  /** The observable effect of one exchange: whether a socket was opened (`connected`), the
      bytes that reached the pot, and the triple handed to the callback. */
  datatype Exchange = Exchange(connected: bool, written: Option<seq<Byte>>, response: Response)

  /** The stale-resolution check: the slot is empty or has no host. */
  predicate Stale(slot: Option<Endpoint>)
  {
    slot.None? || slot.value.host.None?
  }

  /** `sendAndReceive(message, seconds1, seconds2, callback)`; the result's
      `response` is what the callback receives. */
  function SendAndReceive(slot: Option<Endpoint>, message: Meaning,
                          seconds1: Option<Int32>, seconds2: Option<Int32>, link: Link): (x: Exchange)
    ensures Stale(slot) ==> !x.connected && x.response == UnknownResponse
    ensures x.written.Some? ==> x.connected && x.written.value == Encode(message, seconds1, seconds2)
    ensures !x.connected ==> x.response == UnknownResponse
    ensures x.response.kind == UnknownOrError ==> x.response == UnknownResponse
    ensures x.response.timer1.Some? ==> message == Monitor && x.written.Some?
    ensures IsControl(message) ==> x.response == AckResponse || x.response == UnknownResponse
    ensures !Stale(slot) && link.Delivered? ==>
      && x.connected
      && x.written == Some(Encode(message, seconds1, seconds2))
      && x.response == (match Receive(link.reply, message)
                        case Returned(r) => r
                        case Raised => UnknownResponse)
  {
    if Stale(slot) then Exchange(false, None, UnknownResponse)
    else
      match link
      case Refused => Exchange(false, None, UnknownResponse)
      case WriteFailed => Exchange(true, None, UnknownResponse)
      case Delivered(reply) =>
        var request := Encode(message, seconds1, seconds2);
        match Receive(reply, message)
        case Raised => Exchange(true, Some(request), UnknownResponse)
        case Returned(r) => Exchange(true, Some(request), r)
  }

  /** Every failure cause reaches the callback as the same unknown triple: a stale
      slot, a refused connection, a failed write, an empty reply, an unmapped
      first byte, and a read that throws while MONITOR timers are read. */
  lemma FailuresCollapse(slot: Option<Endpoint>, message: Meaning,
                         s1: Option<Int32>, s2: Option<Int32>, reply: Stream)
    ensures SendAndReceive(slot, message, s1, s2, Refused).response == UnknownResponse
    ensures SendAndReceive(slot, message, s1, s2, WriteFailed).response == UnknownResponse
    ensures |reply.bytes| == 0 ==> SendAndReceive(slot, message, s1, s2, Delivered(reply)).response == UnknownResponse
    ensures |reply.bytes| > 0 && FromByte(reply.bytes[0]).None? ==>
      SendAndReceive(slot, message, s1, s2, Delivered(reply)).response == UnknownResponse
    ensures message == Monitor && |reply.bytes| > 0 && reply.endThrows &&
            FromByte(reply.bytes[0]) == Some(Schedule) && |reply.bytes| < 5 ==>
      SendAndReceive(slot, message, s1, s2, Delivered(reply)).response == UnknownResponse
  {
  }

  /** With a live endpoint and a reply starting with the acknowledgement tag, every
      control command is acknowledged, and the exact request bytes were written. */
  lemma ControlAcknowledged(ep: Endpoint, message: Meaning, s1: Option<Int32>, s2: Option<Int32>,
                            rest: seq<Byte>, endThrows: bool)
    requires ep.host.Some? && IsControl(message)
    ensures var x := SendAndReceive(Some(ep), message, s1, s2,
                                    Delivered(Stream([TagByte(Acknowledgement)] + rest, endThrows)));
      x.response == AckResponse && x.written == Some(Encode(message, s1, s2))
  {
    FromByteTagByte(Acknowledgement);
  }

  /** The stale-resolution check works as the discovery contract intends: after
      any run of the corrected listener whose last report was a loss, an exchange fails fast without opening a socket. */
  lemma LostMeansNoConnection(events: seq<Event>, message: Meaning,
                              s1: Option<Int32>, s2: Option<Int32>, link: Link)
    requires Run(Initial, events).Some?
    requires Run(Initial, events).value.last == Lost
    ensures var x := SendAndReceive(Run(Initial, events).value.slot, message, s1, s2, link);
      !x.connected && x.response == UnknownResponse
  {
    RunKeepsContract(Initial, events);
  }

  /** A MONITOR poll of a live endpoint delivers the pot's state: a reply laid out
      as a tag and its big-endian timers reaches the callback as that tag and
      those timers, after the single byte `M` was written. */
  lemma MonitorPollDelivers(ep: Endpoint, m: Meaning, t1: Option<Int32>, t2: Option<Int32>, endThrows: bool)
    requires ep.host.Some?
    requires m in {Warm, Delay} ==> t1.Some? && t2.None?
    requires m == Schedule ==> t1.Some? && t2.Some?
    requires t1.Some? ==> 0 <= t1.value <= MaxU16
    requires t2.Some? ==> 0 <= t2.value <= MaxU16
    ensures var x := SendAndReceive(Some(ep), Monitor, None, None,
                                    Delivered(Stream(Encode(m, t1, t2), endThrows)));
      && x.connected && x.written == Some([TagByte(Monitor)])
      && x.response == (if m in {Warm, Delay, Schedule} then Response(m, t1, t2) else Response(m, None, None))
  {
    MonitorRoundTrip(m, t1, t2, endThrows);
    assert Encode(Monitor, None, None) == [TagByte(Monitor)];
  }
}
